=== FILE: README.md ===
# Meal recipe browser: paging, search sanitising and ingredient lists

A Dafny model of the client-side core of a small meal recipe browser built on
the TheMealDB recipe API (`assets/js/meals-app.js`). The model covers four parts:

- **Paging.** The app holds a catalog of meals (`allMeals`) and a chunk cursor
  (`currentChunkIndex`), and shows the catalog six meals at a time
  (`MEALS_PER_PAGE`). `displayMealsChunk` shows the chunk under the cursor and
  sets the visibility of the "load more" button. `loadMoreMeals` advances the
  cursor. The three fetch flows (`loadAllMeals`, `searchMeals`, `filterByArea`)
  replace the catalog and reset the cursor.
- **Cards.** `displayMeals` is modelled as a list of cards, each with the meal's
  id, name, thumbnail and category caption, or as the single "No meals found."
  placeholder.
- **Search sanitising.** `sanitizeData` trims the term with the ECMAScript
  whitespace set, then deletes every `<` and `>`.
- **Ingredient list.** The `displayMealDetails` loop scans ingredient slots 1 to
  20 and makes one row per present, non-blank ingredient, paired with that
  slot's measure.

Modules:

- `Wrappers`: `Option`.
- `Text`: whitespace, trim, bracket stripping, sanitising.
- `Meals`: the meal record, the card list and `displayMeals`.
- `Paging`: the state machine.
- `PagingFacts`: properties over sequences of load-more actions.
- `Controller`: the fetch flows. Each flow takes the server's response as a
  parameter and reports the request it sends.
- `Details`: the ingredient list, as a function and as the loop that computes it.

Behaviours of the code that a reader may not expect; the model follows the code:

- **A fetch that returns no meals leaves the old cards on screen.** The result
  can be a null `meals` field or an empty list. `displayMealsChunk` returns on
  an empty chunk before it calls `displayMeals`. So the "No meals found."
  placeholder is never produced by paging: the button is hidden and the
  previous cards stay (`Controller.EmptyResultKeepsCards`).
- **A failed `loadAllMeals` leaves an empty catalog.** It clears the catalog and
  the cursor before the request is sent, so failure does not leave the state
  intact.
- **The cursor has no upper bound.** `loadMoreMeals` advances it without
  checking. Past the last chunk only the cursor changes
  (`PagingFacts.LoadMorePastEnd`).
- **A blank search forces the button's inline style.** It sets
  `style.display = "block"` on the button, which is kept as a flag separate
  from its `d-none` class.

## Model

| member | source | states |
|---|---|---|
| `Paging.Slice` | assets/js/meals-app.js:101 | slice clamps both bounds to the length; the result has the clamped length and element i is the element at start+i |
| `Paging.PageOf` | assets/js/meals-app.js:98-101 | chunk k holds at most 6 meals, is the catalog from k*6 to k*6+6 clamped to its end, and is empty exactly when k*6 reaches the catalog's length |
| `Paging.Revealed` | assets/js/meals-app.js:97-108 | chunks 0..k-1 shown in order are exactly the first min(6k, n) meals of the catalog |
| `Paging.DisplayChunk` | assets/js/meals-app.js:97-115 | an empty chunk hides the button and leaves the cards; chunk 0 replaces the cards with those of the first 6 meals; a later chunk appends its cards; the button is hidden exactly when the chunk's end reaches the catalog's end; catalog and cursor are untouched |
| `Paging.LoadMore` | assets/js/meals-app.js:125-134 | the cursor advances by one with no upper bound, the catalog and the inline-style flag are kept, the next chunk's cards are appended when it exists and the cards are left alone otherwise, and the button is hidden exactly when chunk+2 chunks cover the catalog |
| `Paging.Replace` | assets/js/meals-app.js:160-168 | after a successful fetch the result is the catalog, the cursor is 0, the inline-style flag is kept, the button is hidden exactly when the result has at most 6 meals, and the cards are those of its first 6 meals, or are left unchanged when it is empty |
| `PagingFacts.PagesReconstruct` | assets/js/meals-app.js:97-101 | concatenating the chunks up to the chunk count gives back the catalog, every chunk but the last is full, and every chunk from the count on is empty |
| `PagingFacts.ReplaceSyncs` | assets/js/meals-app.js:379-384 | a non-empty result puts the screen in step with the catalog (cards of the prefix up to the cursor's chunk end) and the button in agreement with what is left |
| `PagingFacts.CardsOfNextChunk` | assets/js/meals-app.js:101-108 | the cards of the meals before chunk k followed by chunk k's cards are the cards of the longer prefix |
| `PagingFacts.LoadMoreKeepsSync` | assets/js/meals-app.js:125-134 | loading more keeps the cards equal to those of the catalog's prefix up to the new chunk's end, also past the last chunk |
| `PagingFacts.LoadMorePastEnd` | assets/js/meals-app.js:103-106 | once the button is hidden and agrees with the catalog, loading more changes only the cursor |
| `PagingFacts.LoadMoreTimesShape` | assets/js/meals-app.js:129-131 | j load-mores keep the catalog and advance the cursor by j |
| `PagingFacts.LoadMoreTimesKeepsSync` | assets/js/meals-app.js:125-134 | any number of load-mores keeps the screen in step with the catalog |
| `PagingFacts.AfterLoads` | assets/js/meals-app.js:97-134 | after a non-empty replace and j load-mores the cards are those of the first (j+1)*6 meals (or all of them) in order, and the button is hidden exactly when nothing is left |
| `PagingFacts.FourteenMeals` | assets/js/meals-app.js:97-134 | fourteen meals show the cards of the first 6, then of the first 12, then of all 14, with the button visible, visible, hidden |
| `Meals.CategoryLabel` | assets/js/meals-app.js:77 | the caption is "N/A" exactly when the category is absent, empty or itself "N/A", and otherwise is the category |
| `Meals.CardOf` | assets/js/meals-app.js:68-83 | a meal's card is a card (never the placeholder) whose details button carries the meal's id, with the meal's name and thumbnail, and whose caption is the meal's category whenever that is non-empty and "N/A" otherwise |
| `Meals.CardsOf` | assets/js/meals-app.js:67-86 | a batch gives exactly one card per meal and never the placeholder; `Meals.CardsOfOrder` states that card i is the card of meal i, thumbnail and caption included |
| `Meals.CardsOfOrder` | assets/js/meals-app.js:67-86 | card i is exactly the card of meal i: it opens meal i's details and shows its name, thumbnail and caption, so the cards keep the batch's order |
| `Meals.CardsOfAppend` | assets/js/meals-app.js:67-86 | the cards of two consecutive batches are the cards of the joined batch |
| `Meals.DisplayMeals` | assets/js/meals-app.js:54-87 | without append an empty batch leaves only the placeholder; with append the old items are a prefix of the result; otherwise the result ends with one card per meal in order and has the old length (or 0) plus the batch length |
| `Controller.MealsOrEmpty` | assets/js/meals-app.js:30 | a null or absent `meals` field reads as no meals; any array, even an empty one, is taken as it is |
| `Controller.Apply` | assets/js/meals-app.js:160-173 | a failed request (the `.catch` branch) leaves the state as it was; a body is `Paging.Replace` with its meals: they become the catalog with cursor 0, the inline-style flag is kept, an empty one keeps the cards and hides the button, and a non-empty one leaves the screen in step with the catalog and the button agreeing with what is left |
| `Controller.LoadAllMeals` | assets/js/meals-app.js:24-43 | sends the first-letter request for "a"; a body replaces the catalog; a failure leaves an empty catalog and cursor 0 with the cards kept |
| `Controller.Search` | assets/js/meals-app.js:145-174 | no request is sent exactly when the sanitised term is empty, and the reset then re-shows chunk 0 of the held catalog and forces the button's display; otherwise the sanitised term is sent, a body replaces the catalog and a failure changes nothing |
| `Controller.FilterByArea` | assets/js/meals-app.js:375-392 | sends the area request; a body replaces the catalog; a failure changes nothing |
| `Controller.AreaChanged` | assets/js/meals-app.js:231-238 | an empty area reloads the browse set and any other area is filtered by; a body replaces the catalog either way; a failure leaves the state as it was for an area, but leaves an empty catalog and cursor 0 behind the old cards for the empty choice |
| `Controller.BodyReplaces` | assets/js/meals-app.js:30-34 | every flow that receives a body, including the area selector's handler, makes its meals (or none, for a null field) the catalog with cursor 0 |
| `Controller.EmptyResultKeepsCards` | assets/js/meals-app.js:161-168 | a search whose result is null or empty clears the catalog and hides the button but keeps the previous cards |
| `Controller.BlankSearchResets` | assets/js/meals-app.js:149-156 | a whitespace-only term sends nothing, resets the cursor, keeps the catalog and forces the button's display |
| `Controller.BracketsOnlySendsNothing` | assets/js/meals-app.js:149-156 | the term "<>" sends no request |
| `Controller.SpacedBracketsSearchSpace` | assets/js/meals-app.js:149-158 | the term "< >" searches for a single space |
| `Controller.SearchKeepsSync` | assets/js/meals-app.js:145-174 | a search keeps the screen in step with the catalog unless it receives an empty result, and a searched body makes the button agree with what is left |
| `Text.WsTable` | assets/js/meals-app.js:177 | the whitespace set trim removes (`Text.IsWs`, the ECMAScript WhiteSpace and LineTerminator code points) contains space, tab, LF, CR, VT, FF, the no-break space, the byte-order mark, the line and paragraph separators and the ideographic space, and excludes every ASCII letter and digit, `<`, `>`, the zero-width space and NEL |
| `Text.Trim` | assets/js/meals-app.js:177 | `String.prototype.trim` never lengthens its input; `Text.TrimSplits`, `Text.TrimIsTrimmed` and `Text.TrimUnique` pin it down: the input is whitespace + result + whitespace, and the result has no whitespace at its ends |
| `Text.LeadingWsSpec` | assets/js/meals-app.js:177 | the leading run counted by trim is all whitespace and ends at a non-whitespace character or at the end |
| `Text.TrailingWsSpec` | assets/js/meals-app.js:177 | the trailing run counted by trim is all whitespace and starts after a non-whitespace character or at the start |
| `Text.TrimIsTrimmed` | assets/js/meals-app.js:177 | the trimmed string has no whitespace at either end |
| `Text.TrimSplits` | assets/js/meals-app.js:177 | the input is whitespace, then the trimmed string, then whitespace |
| `Text.TrimUnique` | assets/js/meals-app.js:177 | trimming whitespace + a core with no whitespace at its ends + whitespace gives exactly the core |
| `Text.TrimKeepsTrimmed` | assets/js/meals-app.js:177 | a string without whitespace at its ends is its own trim |
| `Text.TrimEmptyIff` | assets/js/meals-app.js:177 | trim gives the empty string exactly when the input is all whitespace |
| `Text.StripAngles` | assets/js/meals-app.js:177 | `replace(/[<>]/g, "")` never lengthens its input; `Text.StripAnglesNoAngles`, `Text.StripAnglesCounts`, `Text.StripAnglesAppend` and `Text.StripAnglesKeepsPlain` pin it down: brackets go, every other character stays, in order |
| `Text.StripAnglesNoAngles` | assets/js/meals-app.js:177 | removing brackets leaves no `<` or `>` |
| `Text.StripAnglesCounts` | assets/js/meals-app.js:177 | removing brackets keeps the count of every other character and leaves none of `<` and `>` |
| `Text.StripAnglesAppend` | assets/js/meals-app.js:177 | bracket removal works piece by piece: stripping a joined string joins the stripped pieces |
| `Text.StripAnglesKeepsPlain` | assets/js/meals-app.js:177 | a string without brackets is unchanged |
| `Text.Sanitize` | assets/js/meals-app.js:176-178 | the sanitised term is no longer than the input, has no brackets, and holds every other character of the trimmed input as often as it occurs there; the order of those characters is kept, as `Text.SanitizeDeletes` states |
| `Text.SanitizeDeletes` | assets/js/meals-app.js:176-178 | for whitespace + a core without whitespace at its ends + whitespace, the sanitised term is the core with its brackets deleted in place, so the surviving characters keep their order |
| `Text.SanitizeEmptyIff` | assets/js/meals-app.js:176-178 | the sanitised term is empty exactly when every character of the trimmed input is a bracket |
| `Text.BlankSanitizesEmpty` | assets/js/meals-app.js:176-178 | a whitespace-only input sanitises to the empty string |
| `Text.SanitizeExample` | assets/js/meals-app.js:176-178 | " <b>chicken</b> " sanitises to "bchicken/b" |
| `Text.StripAnglesSpaced` | assets/js/meals-app.js:177 | deleting the brackets of "< >" leaves a single space |
| `Text.SanitizeSpacedBrackets` | assets/js/meals-app.js:176-178 | "< >" sanitises to a single space, because trimming happens before the brackets go |
| `Text.SanitizeNotIdempotent` | assets/js/meals-app.js:176-178 | "< b" sanitises to " b", which sanitises again to "b": brackets are removed after trimming |
| `Details.ListedIff` | assets/js/meals-app.js:283 | a slot is listed exactly when its ingredient is present and not whitespace only |
| `Details.ListedSlots` | assets/js/meals-app.js:279-283 | the scan from a slot on yields no more entries than slots remain, each in range and listed (that no slot repeats follows from `Details.ListedSlotsIncreasing`) |
| `Details.ListedSlotsIncreasing` | assets/js/meals-app.js:279 | the listed slots come in strictly increasing slot order |
| `Details.ListedSlotsExact` | assets/js/meals-app.js:279-283 | a slot in range is among the listed slots exactly when its ingredient is listed |
| `Details.RowsFollowSlots` | assets/js/meals-app.js:279-293 | row k is the ingredient and measure of the k-th listed slot |
| `Details.Ingredients` | assets/js/meals-app.js:279-293 | at most 20 rows, one per listed slot, each pairing that slot's ingredient with its measure as delivered |
| `Details.BuildIngredients` | assets/js/meals-app.js:279-293 | the loop over slots 1..20 builds exactly the ingredient list |
| `Details.OnlySlotThree` | assets/js/meals-app.js:279-283 | with slot 3 "Salt" and every other slot absent or empty, only slot 3 is listed |
| `Details.SaltOnly` | assets/js/meals-app.js:279-293 | such a record lists exactly the row ("Salt", "1 tsp") |

## Left out

- The network, `fetch` and JSON decoding are not modelled. Each flow takes the response as a parameter, and any rejection, including a decode failure, is `Failed`.
- Overlapping requests are not modelled: each flow completes before the next begins. In particular `loadAllMeals` resets the cursor only before its request (line 26), not in its `.then`, so a load-more click while it is pending would make the new catalog start from chunk 1, appended to the old cards; the model resets the cursor inside `Paging.Replace` and does not show that interleaving.
- The 300 ms `setTimeout` in `loadMoreMeals` and the button's `disabled` toggle are timing only. The model applies the delayed step at once.
- The loader screen, alerts, console logging and `window.scrollTo` have no effect on the modelled state.
- The HTML markup of cards and of the details page is not modelled beyond each card's fields. This includes the source and YouTube buttons, the category and area badges, and the instructions.
- `encodeURIComponent` is not modelled. The area is sent unencoded, as the code does, and a request is modelled by its kind and its text.
- `loadAreas`, which fills the area selector, is not modelled. It feeds no modelled state.
- `showMealDetails` and `closeMealDetails` are not modelled. The lookup and the view switch are I/O; the details page is modelled as the ingredient list of the meal it receives.
- Dark mode (`toggleDarkMode`, `loadDarkMode`, `localStorage`) is outside the modelled core.
- Text.Sanitize: strings are sequences of Unicode characters, not UTF-16 code units, so characters outside the Basic Multilingual Plane are single elements. Trim removes whitespace characters only.
- `Meals.DisplayMeals`: the DOM container is modelled as a list of items. The code inserts names, captions, thumbnails and ids into the card markup unescaped, so markup in a name is parsed as HTML; the model keeps them as plain text.
- `Details.Ingredients`: a non-string ingredient value (a number from malformed JSON) is not modelled. Fields are absent, null or strings. The model merges null and absent into `None`: this is exact for the ingredient, since both are falsy in the listing test, but the page prints a null measure as "null" and a missing one as "undefined", a difference `Row.measure` does not keep.

=== FILE: controller.dfy ===
/**
 The application's fetch-then-show flows: the initial browse, the search form,
 and the area filter. The network is not modelled: each flow takes the
 response its request would receive as a parameter and reports the request it
 sends, if any.
 */
module Controller {
  import opened Wrappers
  import opened Meals
  import opened Paging
  import Text
  import PagingFacts

  /** What a meal endpoint answers: a body whose `meals` field may be null or absent, or a failed request. */
  datatype Response = Failed | Body(meals: Option<seq<Meal>>)

  /** The meal requests the application sends to the recipe API. */
  datatype Request =
    | ByFirstLetter(letter: string)
    | ByName(name: string)
    | ByArea(area: string)

  /** The page state after a flow, and the request the flow sent. */
  datatype Outcome = Outcome(state: State, sent: Option<Request>)

  /** The first letter of the meals the start page browses. */
  const BrowseLetter: string := "a"

  /** `data.meals || []`: a null or absent `meals` field is an empty result; an array, even an empty one, is kept. */
  function MealsOrEmpty(meals: Option<seq<Meal>>): (r: seq<Meal>)
    ensures meals.None? ==> r == []
    ensures meals.Some? ==> r == meals.value
  {
    meals.GetOr([])
  }

  /** A completed meal request: a body replaces the catalog, a failure changes nothing. */
  function Apply(st: State, resp: Response): (r: State)
    ensures resp.Failed? ==> r == st
    ensures resp.Body? ==> r == Replace(st, MealsOrEmpty(resp.meals))
    ensures resp.Body? ==> r.allMeals == MealsOrEmpty(resp.meals) && r.chunk == 0
    ensures resp.Body? ==> r.loadMoreForcedBlock == st.loadMoreForcedBlock
    ensures resp.Body? && MealsOrEmpty(resp.meals) == [] ==> r.container == st.container && r.loadMoreHidden
    ensures resp.Body? && resp.meals.Some? && |resp.meals.value| > 0 ==> Synced(r) && ButtonAgrees(r)
  {
    match resp
    case Body(meals) =>
      var ms := MealsOrEmpty(meals);
      if |ms| > 0 then PagingFacts.ReplaceSyncs(st, ms); Replace(st, ms) else Replace(st, ms)
    case Failed => st
  }

  /**
   `loadAllMeals`: the catalog and cursor are cleared before the request is
   sent, so a failed request leaves an empty catalog behind the old cards.
   */
  function LoadAllMeals(st: State, resp: Response): (r: Outcome)
    ensures r.sent == Some(ByFirstLetter(BrowseLetter))
    ensures r.state.chunk == 0
    ensures resp.Failed? ==> r.state == st.(allMeals := [], chunk := 0)
    ensures resp.Body? ==> r.state == Replace(st, MealsOrEmpty(resp.meals))
  {
    Outcome(Apply(st.(allMeals := [], chunk := 0), resp), Some(ByFirstLetter(BrowseLetter)))
  }

  /**
   `searchMeals`: a term that sanitises to nothing sends no request; it
   re-shows chunk 0 of the catalog already held and forces the load-more
   button's inline display. Otherwise the sanitised term is searched for.
   */
  function Search(st: State, term: string, resp: Response): (r: Outcome)
    ensures r.sent.None? <==> Text.Sanitize(term) == []
    ensures r.sent.Some? ==> r.sent.value == ByName(Text.Sanitize(term))
    ensures r.sent.None? ==> r.state == DisplayChunk(st.(chunk := 0)).(loadMoreForcedBlock := true)
    ensures r.sent.None? ==> r.state.allMeals == st.allMeals && r.state.chunk == 0
    ensures r.sent.Some? && resp.Failed? ==> r.state == st
    ensures r.sent.Some? && resp.Body? ==> r.state == Replace(st, MealsOrEmpty(resp.meals))
  {
    var cleaned := Text.Sanitize(term);
    if cleaned == [] then
      Outcome(DisplayChunk(st.(chunk := 0)).(loadMoreForcedBlock := true), None)
    else
      Outcome(Apply(st, resp), Some(ByName(cleaned)))
  }

  /** `filterByArea`: the meals of one area replace the catalog; a failure changes nothing. */
  function FilterByArea(st: State, area: string, resp: Response): (r: Outcome)
    ensures r.sent == Some(ByArea(area))
    ensures resp.Failed? ==> r.state == st
    ensures resp.Body? ==> r.state == Replace(st, MealsOrEmpty(resp.meals))
  {
    Outcome(Apply(st, resp), Some(ByArea(area)))
  }

  /** The area selector's change handler: the empty placeholder option reloads the browse set. */
  function AreaChanged(st: State, area: string, resp: Response): (r: Outcome)
    ensures area == [] ==> r.sent == Some(ByFirstLetter(BrowseLetter))
    ensures area != [] ==> r.sent == Some(ByArea(area))
    ensures area == [] && resp.Failed? ==> r.state == st.(allMeals := [], chunk := 0)
    ensures area != [] && resp.Failed? ==> r.state == st
    ensures resp.Body? ==> r.state == Replace(st, MealsOrEmpty(resp.meals))
  {
    if area != [] then FilterByArea(st, area, resp) else LoadAllMeals(st, resp)
  }

  /** Every flow that receives a body replaces the catalog with its meals and resets the cursor to 0. */
  lemma BodyReplaces(st: State, term: string, area: string, resp: Response)
    requires resp.Body?
    ensures var r := LoadAllMeals(st, resp).state;
      r.allMeals == MealsOrEmpty(resp.meals) && r.chunk == 0
    ensures var r := FilterByArea(st, area, resp).state;
      r.allMeals == MealsOrEmpty(resp.meals) && r.chunk == 0
    ensures Text.Sanitize(term) != [] ==>
      var r := Search(st, term, resp).state;
      r.allMeals == MealsOrEmpty(resp.meals) && r.chunk == 0
    ensures var r := AreaChanged(st, area, resp).state;
      r.allMeals == MealsOrEmpty(resp.meals) && r.chunk == 0
    ensures resp.meals.None? ==> MealsOrEmpty(resp.meals) == []
  {
  }

  /**
   An empty result (a null `meals` field or an empty list) hides the load-more
   button but renders nothing: the cards of the previous catalog stay on screen.
   */
  lemma EmptyResultKeepsCards(st: State, term: string, resp: Response)
    requires resp == Body(None) || resp == Body(Some([]))
    requires Text.Sanitize(term) != []
    ensures var r := Search(st, term, resp).state;
      r.allMeals == [] && r.container == st.container && r.loadMoreHidden
  {
  }

  /** Whitespace-only input sends no request; it resets the cursor and keeps the catalog. */
  lemma BlankSearchResets(st: State, term: string, resp: Response)
    requires Text.AllWs(term)
    ensures var r := Search(st, term, resp);
      r.sent == None && r.state.chunk == 0 && r.state.allMeals == st.allMeals && r.state.loadMoreForcedBlock
  {
    Text.BlankSanitizesEmpty(term);
  }

  /** `"<>"` sanitises to nothing, so submitting it sends no request. */
  lemma BracketsOnlySendsNothing(st: State, resp: Response)
    ensures Search(st, "<>", resp).sent == None
  {
    Text.SanitizeBracketsOnly();
  }

  /** `"< >"` keeps its space after sanitising, so submitting it searches for " ". */
  lemma SpacedBracketsSearchSpace(st: State, resp: Response)
    ensures Search(st, "< >", resp).sent == Some(ByName(" "))
  {
    Text.SanitizeSpacedBrackets();
  }

  /** A search keeps the screen in step with the catalog unless it receives an empty result. */
  lemma SearchKeepsSync(st: State, term: string, resp: Response)
    requires Synced(st)
    requires resp.Body? ==> |MealsOrEmpty(resp.meals)| > 0
    ensures Synced(Search(st, term, resp).state)
    ensures Text.Sanitize(term) != [] && resp.Body? ==> ButtonAgrees(Search(st, term, resp).state)
  {
    if Text.Sanitize(term) != [] && resp.Body? {
      PagingFacts.ReplaceSyncs(st, MealsOrEmpty(resp.meals));
    }
  }
}

=== FILE: details.dfy ===
/**
 The ingredients list of the meal details view: slots 1..20 are scanned in
 order and every slot whose ingredient is present and not blank gives one row,
 the ingredient paired with that slot's measure as delivered.
 */
module Details {
  import opened Wrappers
  import opened Meals
  import Text

  const FirstSlot: int := 1
  const LastSlot: int := 20

  /** One line of the ingredients list. The measure is shown as delivered, absent or not. */
  datatype Row = Row(ingredient: string, measure: Option<string>)

  /** The value of slot `i` of a field family; a slot the record lacks is absent. */
  function Slot(fields: map<int, Option<string>>, i: int): Option<string> {
    if i in fields then fields[i] else None
  }

  /** `ingredient && ingredient.trim() !== ""` */
  predicate Listed(m: Meal, i: int) {
    Slot(m.ingredients, i).Some? && Text.Trim(Slot(m.ingredients, i).value) != []
  }

  /** A slot is listed exactly when its ingredient is present and not whitespace only. */
  lemma ListedIff(m: Meal, i: int)
    ensures Listed(m, i) <==> Slot(m.ingredients, i).Some? && !Text.AllWs(Slot(m.ingredients, i).value)
  {
    if Slot(m.ingredients, i).Some? {
      Text.TrimEmptyIff(Slot(m.ingredients, i).value);
    }
  }

  function RowAt(m: Meal, i: int): Row
    requires Listed(m, i)
  {
    Row(Slot(m.ingredients, i).value, Slot(m.measures, i))
  }

  /** The listed slots from `from` to the last one, in increasing order. */
  function ListedSlots(m: Meal, from: int): (slots: seq<int>)
    requires FirstSlot <= from <= LastSlot + 1
    decreases LastSlot + 1 - from
    ensures |slots| <= LastSlot + 1 - from
    ensures forall k :: 0 <= k < |slots| ==> from <= slots[k] <= LastSlot && Listed(m, slots[k])
  {
    if from > LastSlot then []
    else
      var rest := ListedSlots(m, from + 1);
      if Listed(m, from) then [from] + rest else rest
  }

  predicate Increasing(s: seq<int>) {
    forall k, l :: 0 <= k < l < |s| ==> s[k] < s[l]
  }

  lemma IncreasingCons(x: int, rest: seq<int>)
    requires Increasing(rest)
    requires forall k :: 0 <= k < |rest| ==> x < rest[k]
    ensures Increasing([x] + rest)
  {
    var s := [x] + rest;
    forall k, l | 0 <= k < l < |s| ensures s[k] < s[l] {
      assert s[l] == rest[l - 1];
    }
  }

  /** The listed slots come in strictly increasing order. */
  lemma {:induction false} ListedSlotsIncreasing(m: Meal, from: int)
    requires FirstSlot <= from <= LastSlot + 1
    decreases LastSlot + 1 - from
    ensures Increasing(ListedSlots(m, from))
  {
    if from <= LastSlot {
      var rest := ListedSlots(m, from + 1);
      ListedSlotsIncreasing(m, from + 1);
      if Listed(m, from) {
        IncreasingCons(from, rest);
        assert ListedSlots(m, from) == [from] + rest;
      } else {
        assert ListedSlots(m, from) == rest;
      }
    }
  }

  /** A slot from `from` on is among the listed slots exactly when its ingredient is listed. */
  lemma {:induction false} ListedSlotsExact(m: Meal, from: int)
    requires FirstSlot <= from <= LastSlot + 1
    decreases LastSlot + 1 - from
    ensures forall j :: from <= j <= LastSlot ==> (j in ListedSlots(m, from) <==> Listed(m, j))
  {
    if from <= LastSlot {
      ListedSlotsExact(m, from + 1);
    }
  }

  /** The rows for slots `from` .. 20: one per listed slot, in slot order. */
  function RowsFrom(m: Meal, from: int): seq<Row>
    requires FirstSlot <= from <= LastSlot + 1
    decreases LastSlot + 1 - from
  {
    if from > LastSlot then []
    else
      var rest := RowsFrom(m, from + 1);
      if Listed(m, from) then [RowAt(m, from)] + rest else rest
  }

  /** Row `k` is the row of the `k`-th listed slot. */
  lemma {:induction false} RowsFollowSlots(m: Meal, from: int)
    requires FirstSlot <= from <= LastSlot + 1
    decreases LastSlot + 1 - from
    ensures |RowsFrom(m, from)| == |ListedSlots(m, from)|
    ensures forall k :: 0 <= k < |RowsFrom(m, from)| ==> RowsFrom(m, from)[k] == RowAt(m, ListedSlots(m, from)[k])
  {
    if from <= LastSlot {
      RowsFollowSlots(m, from + 1);
    }
  }

  /** The ingredients list of a meal: row `k` pairs the `k`-th listed slot's ingredient with that slot's measure. */
  function Ingredients(m: Meal): (rows: seq<Row>)
    ensures |rows| <= LastSlot - FirstSlot + 1
    ensures |rows| == |ListedSlots(m, FirstSlot)|
    ensures forall k :: 0 <= k < |rows| ==>
      var i := ListedSlots(m, FirstSlot)[k];
      Slot(m.ingredients, i) == Some(rows[k].ingredient) && rows[k].measure == Slot(m.measures, i)
  {
    RowsFollowSlots(m, FirstSlot);
    RowsFrom(m, FirstSlot)
  }

  /** The loop of `displayMealDetails` that builds the ingredients list. */
  method BuildIngredients(m: Meal) returns (rows: seq<Row>)
    ensures rows == Ingredients(m)
  {
    rows := [];
    for i := FirstSlot to LastSlot + 1
      invariant rows + RowsFrom(m, i) == RowsFrom(m, FirstSlot)
    {
      var ingredient := Slot(m.ingredients, i);
      var measure := Slot(m.measures, i);
      if ingredient.Some? && Text.Trim(ingredient.value) != [] {
        assert RowsFrom(m, i) == [Row(ingredient.value, measure)] + RowsFrom(m, i + 1);
        assert rows + [Row(ingredient.value, measure)] + RowsFrom(m, i + 1) == rows + RowsFrom(m, i);
        rows := rows + [Row(ingredient.value, measure)];
      } else {
        assert RowsFrom(m, i) == RowsFrom(m, i + 1);
      }
    }
  }

  /** Only slot 3 is listed in a record whose other ingredient slots are absent or empty. */
  lemma OnlySlotThree(m: Meal)
    requires Slot(m.ingredients, 3) == Some("Salt")
    requires forall i :: FirstSlot <= i <= LastSlot && i != 3 ==> Slot(m.ingredients, i) in {None, Some("")}
    ensures ListedSlots(m, FirstSlot) == [3]
  {
    Text.TrimKeepsTrimmed("Salt");
    var slots := ListedSlots(m, FirstSlot);
    ListedSlotsExact(m, FirstSlot);
    ListedSlotsIncreasing(m, FirstSlot);
    assert 3 in slots;
    assert forall k :: 0 <= k < |slots| ==> slots[k] == 3;
    assert slots == [slots[0]];
  }

  /** A record whose only non-empty ingredient is "Salt" in slot 3 lists exactly that row, with its measure. */
  lemma SaltOnly(m: Meal)
    requires Slot(m.ingredients, 3) == Some("Salt") && Slot(m.measures, 3) == Some("1 tsp")
    requires forall i :: FirstSlot <= i <= LastSlot && i != 3 ==> Slot(m.ingredients, i) in {None, Some("")}
    ensures Ingredients(m) == [Row("Salt", Some("1 tsp"))]
  {
    OnlySlotThree(m);
  }
}

=== FILE: meals.dfy ===
/**
 The meal record as the recipe API delivers it, and the list view that
 `displayMeals` builds from a batch of meals: one card per meal, or a
 "No meals found." placeholder.
 */
module Meals {
  import opened Wrappers

  /**
   One recipe. Ingredient and measure slots are keyed by slot number (1..20 in
   the API); a missing key stands for an absent (`undefined`) field. The area,
   instructions, source and YouTube fields only feed the details page markup,
   which is not modelled; they are kept so that the record is complete.
   */
  datatype Meal = Meal(
    id: string,
    name: string,
    thumb: string,
    category: Option<string>,
    area: Option<string>,
    instructions: Option<string>,
    source: Option<string>,
    youtube: Option<string>,
    ingredients: map<int, Option<string>>,
    measures: map<int, Option<string>>)

  /** One child of the list container: a meal card or the empty-result placeholder. */
  datatype Item =
    | NoMealsFound
    | Card(mealId: string, title: string, thumb: string, caption: string)

  /** The text shown when a meal has no category. */
  const NoCategory: string := "N/A"

  /** `meal.strCategory || "N/A"`: an absent or empty category falls back to "N/A". */
  function CategoryLabel(m: Meal): (caption: string)
    ensures caption == NoCategory <==> (m.category.None? || m.category.value in {"", NoCategory})
    ensures caption != NoCategory ==> m.category == Some(caption)
  {
    match m.category
    case Some(c) => if c == "" then NoCategory else c
    case None => NoCategory
  }

  /** The card for one meal; its details button is bound to the meal's id. */
  function CardOf(m: Meal): (card: Item)
    ensures card.Card? && card.mealId == m.id && card.title == m.name && card.thumb == m.thumb
    ensures card.caption == NoCategory || m.category == Some(card.caption)
    ensures m.category.Some? && m.category.value != "" ==> card.caption == m.category.value
  {
    Card(m.id, m.name, m.thumb, CategoryLabel(m))
  }

  /** One card per meal, in input order. */
  function CardsOf(ms: seq<Meal>): (cards: seq<Item>)
    ensures |cards| == |ms|
    ensures NoMealsFound !in cards
  {
    seq(|ms|, i requires 0 <= i < |ms| => CardOf(ms[i]))
  }

  /** Card `i` opens the details of meal `i`: the cards keep the batch's order. */
  lemma CardsOfOrder(ms: seq<Meal>)
    ensures forall i :: 0 <= i < |ms| ==> CardsOf(ms)[i].mealId == ms[i].id && CardsOf(ms)[i].title == ms[i].name
    ensures forall i :: 0 <= i < |ms| ==> CardsOf(ms)[i] == CardOf(ms[i])
  {
  }

  /** Cards of consecutive batches are the cards of the whole batch. */
  lemma CardsOfAppend(a: seq<Meal>, b: seq<Meal>)
    ensures CardsOf(a + b) == CardsOf(a) + CardsOf(b)
  {
    assert forall i :: 0 <= i < |a + b| ==> CardsOf(a + b)[i] == (CardsOf(a) + CardsOf(b))[i];
  }

  /**
   `displayMeals(meals, append)`: without `append` the container is cleared
   first, and an empty batch then leaves only the placeholder; otherwise one card
   per meal is added after whatever the container keeps.
   */
  function DisplayMeals(container: seq<Item>, meals: seq<Meal>, append: bool): (r: seq<Item>)
    ensures !append && |meals| == 0 ==> r == [NoMealsFound]
    ensures append ==> container <= r
    ensures append || |meals| > 0 ==> |r| == (if append then |container| else 0) + |meals|
    ensures append || |meals| > 0 ==> r[|r| - |meals|..] == CardsOf(meals)
  {
    var kept := if append then container else [];
    if |meals| == 0 && !append then [NoMealsFound]
    else kept + CardsOf(meals)
  }
}

=== FILE: paging.dfy ===
/**
 The paging state machine of the meals list: the catalog (`allMeals`), the
 chunk cursor (`currentChunkIndex`), the cards in the list container and the
 visibility of the "load more" button, with the three transitions the
 application performs on it: show the current chunk, load more, and replace
 the catalog after a fetch.
 */
module Paging {
  import opened Meals

  /** `MEALS_PER_PAGE`. */
  const PageSize: nat := 6

  function Min(a: int, b: int): int {
    if a <= b then a else b
  }

  /** `Array.prototype.slice(start, end)` for non-negative bounds: both bounds are clamped to the length. */
  function Slice<T>(a: seq<T>, start: nat, end: nat): (r: seq<T>)
    ensures |r| == if Min(end, |a|) <= Min(start, |a|) then 0 else Min(end, |a|) - Min(start, |a|)
    ensures forall i :: 0 <= i < |r| ==> r[i] == a[start + i]
  {
    var lo := Min(start, |a|);
    var hi := Min(end, |a|);
    if hi <= lo then [] else a[lo..hi]
  }

  /** Chunk `k` of the catalog: the meals at positions k*6 up to, not including, k*6+6. */
  function PageOf(meals: seq<Meal>, k: nat): (page: seq<Meal>)
    ensures |page| <= PageSize
    ensures page == meals[Min(k * PageSize, |meals|)..Min(k * PageSize + PageSize, |meals|)]
    ensures |page| == 0 <==> k * PageSize >= |meals|
  {
    Slice(meals, k * PageSize, k * PageSize + PageSize)
  }

  /** Chunks 0 .. k-1 shown one after the other. */
  function Revealed(meals: seq<Meal>, k: nat): (shown: seq<Meal>)
    ensures shown == meals[..Min(k * PageSize, |meals|)]
  {
    if k == 0 then [] else Revealed(meals, k - 1) + PageOf(meals, k - 1)
  }

  /**
   The page state. `loadMoreHidden` is the `d-none` class of the load-more
   button; `loadMoreForcedBlock` is its inline `style.display = "block"`, a
   separate mechanism that only the empty-search reset sets.
   */
  datatype State = State(
    allMeals: seq<Meal>,
    chunk: nat,
    container: seq<Item>,
    loadMoreHidden: bool,
    loadMoreForcedBlock: bool)

  /**
   `displayMealsChunk`: an empty chunk only hides the button and leaves the
   cards as they are; otherwise chunk 0 replaces the cards, later chunks are
   appended, and the button is hidden exactly when the chunk reaches the end.
   */
  function DisplayChunk(st: State): (r: State)
    ensures r.allMeals == st.allMeals && r.chunk == st.chunk
    ensures r.loadMoreForcedBlock == st.loadMoreForcedBlock
    ensures r.loadMoreHidden <==> (st.chunk + 1) * PageSize >= |st.allMeals|
    ensures st.chunk * PageSize >= |st.allMeals| ==> r.container == st.container
    ensures st.chunk * PageSize < |st.allMeals| && st.chunk == 0 ==>
      r.container == CardsOf(st.allMeals[..Min(PageSize, |st.allMeals|)])
    ensures st.chunk * PageSize < |st.allMeals| && st.chunk > 0 ==>
      r.container == st.container + CardsOf(PageOf(st.allMeals, st.chunk))
  {
    var page := PageOf(st.allMeals, st.chunk);
    if |page| == 0 then
      st.(loadMoreHidden := true)
    else
      var start := st.chunk * PageSize;
      st.(container := DisplayMeals(st.container, page, st.chunk > 0),
          loadMoreHidden := start + PageSize >= |st.allMeals|)
  }

  /** `loadMoreMeals` once its delay has run out: the cursor advances, with no upper bound, and that chunk is shown. */
  function LoadMore(st: State): (r: State)
    ensures r.allMeals == st.allMeals && r.chunk == st.chunk + 1
    ensures r.loadMoreHidden <==> (st.chunk + 2) * PageSize >= |st.allMeals|
    ensures r.loadMoreForcedBlock == st.loadMoreForcedBlock
    ensures (st.chunk + 1) * PageSize < |st.allMeals| ==>
      r.container == st.container + CardsOf(PageOf(st.allMeals, st.chunk + 1))
    ensures (st.chunk + 1) * PageSize >= |st.allMeals| ==> r.container == st.container
  {
    DisplayChunk(st.(chunk := st.chunk + 1))
  }

  /** A successful fetch: its meals become the catalog, the cursor goes back to 0 and chunk 0 is shown. */
  function Replace(st: State, meals: seq<Meal>): (r: State)
    ensures r.allMeals == meals && r.chunk == 0
    ensures r.loadMoreHidden <==> |meals| <= PageSize
    ensures r.loadMoreForcedBlock == st.loadMoreForcedBlock
    ensures |meals| == 0 ==> r.container == st.container
    ensures |meals| > 0 ==> r.container == CardsOf(meals[..Min(PageSize, |meals|)])
  {
    DisplayChunk(st.(allMeals := meals, chunk := 0))
  }

  /** `LoadMore` applied `j` times. */
  function LoadMoreTimes(st: State, j: nat): State {
    if j == 0 then st else LoadMore(LoadMoreTimes(st, j - 1))
  }

  /** The cards on screen are exactly those of the catalog's prefix up to the end of the current chunk. */
  predicate Synced(st: State) {
    st.container == CardsOf(st.allMeals[..Min((st.chunk + 1) * PageSize, |st.allMeals|)])
  }

  /** The load-more button is hidden exactly when no further chunk exists. */
  predicate ButtonAgrees(st: State) {
    st.loadMoreHidden <==> (st.chunk + 1) * PageSize >= |st.allMeals|
  }
}

=== FILE: paging_facts.dfy ===
/**
 Properties of the paging state machine over whole sequences of user actions:
 the chunks tile the catalog, the screen stays in step with the catalog while
 the user loads more, and the load-more button agrees with what is left.
 */
module PagingFacts {
  import opened Meals
  import opened Paging

  /** The number of chunks a catalog has. */
  function PageCount(meals: seq<Meal>): nat {
    (|meals| + PageSize - 1) / PageSize
  }

  /** Concatenating the chunks in cursor order gives back the catalog; every chunk but the last is full. */
  lemma PagesReconstruct(meals: seq<Meal>)
    ensures Revealed(meals, PageCount(meals)) == meals
    ensures forall k :: 0 <= k < PageCount(meals) - 1 ==> |PageOf(meals, k)| == PageSize
    ensures forall k :: PageCount(meals) <= k ==> PageOf(meals, k) == []
  {
    assert PageCount(meals) * PageSize >= |meals|;
  }

  /** Replacing the catalog with a non-empty result puts the screen in step with it. */
  lemma ReplaceSyncs(st: State, meals: seq<Meal>)
    requires |meals| > 0
    ensures Synced(Replace(st, meals)) && ButtonAgrees(Replace(st, meals))
  {
  }

  /** Appending the cards of chunk `k` to the cards of the meals before it gives the cards of the longer prefix. */
  lemma CardsOfNextChunk(meals: seq<Meal>, k: nat)
    requires k * PageSize < |meals|
    ensures CardsOf(meals[..Min(k * PageSize, |meals|)]) + CardsOf(PageOf(meals, k))
         == CardsOf(meals[..Min((k + 1) * PageSize, |meals|)])
  {
    var shown := meals[..Min(k * PageSize, |meals|)];
    CardsOfAppend(shown, PageOf(meals, k));
    assert shown + PageOf(meals, k) == meals[..Min((k + 1) * PageSize, |meals|)];
  }

  /** Loading more keeps the screen in step with the catalog, also past the last chunk. */
  lemma LoadMoreKeepsSync(st: State)
    requires Synced(st)
    ensures Synced(LoadMore(st))
  {
    var k := st.chunk + 1;
    var n := |st.allMeals|;
    if k * PageSize < n {
      CardsOfNextChunk(st.allMeals, k);
    } else {
      assert Min((k + 1) * PageSize, n) == n == Min(k * PageSize, n);
    }
  }

  /** Loading more after the last chunk changes nothing but the cursor. */
  lemma LoadMorePastEnd(st: State)
    requires st.loadMoreHidden && ButtonAgrees(st)
    ensures LoadMore(st) == st.(chunk := st.chunk + 1)
  {
  }

  lemma {:induction false} LoadMoreTimesShape(st: State, j: nat)
    ensures var r := LoadMoreTimes(st, j);
      r.allMeals == st.allMeals && r.chunk == st.chunk + j
  {
    if j > 0 {
      LoadMoreTimesShape(st, j - 1);
    }
  }

  lemma {:induction false} LoadMoreTimesKeepsSync(st: State, j: nat)
    requires Synced(st)
    ensures Synced(LoadMoreTimes(st, j))
  {
    if j > 0 {
      var prev := LoadMoreTimes(st, j - 1);
      LoadMoreTimesKeepsSync(st, j - 1);
      LoadMoreKeepsSync(prev);
      assert LoadMoreTimes(st, j) == LoadMore(prev);
    }
  }

  /**
   After a non-empty replace followed by `j` load-mores, the screen holds the
   first (j+1)*6 meals of the catalog (or all of it), in order, and the button is
   hidden exactly when nothing is left.
   */
  lemma AfterLoads(st: State, meals: seq<Meal>, j: nat)
    requires |meals| > 0
    ensures var r := LoadMoreTimes(Replace(st, meals), j);
      && r.chunk == j
      && r.container == CardsOf(meals[..Min((j + 1) * PageSize, |meals|)])
      && (r.loadMoreHidden <==> (j + 1) * PageSize >= |meals|)
  {
    var r0 := Replace(st, meals);
    ReplaceSyncs(st, meals);
    LoadMoreTimesKeepsSync(r0, j);
    LoadMoreTimesShape(r0, j);
    if j > 0 {
      LoadMoreTimesShape(r0, j - 1);
      assert LoadMoreTimes(r0, j) == LoadMore(LoadMoreTimes(r0, j - 1));
    }
  }

  /** Fourteen meals: 6 cards with the button shown, then 12 with it shown, then all 14 with it hidden. */
  lemma FourteenMeals(st: State, meals: seq<Meal>)
    requires |meals| == 14
    ensures var r0 := Replace(st, meals);
      r0.container == CardsOf(meals[..6]) && !r0.loadMoreHidden
    ensures var r1 := LoadMore(Replace(st, meals));
      r1.container == CardsOf(meals[..12]) && !r1.loadMoreHidden
    ensures var r2 := LoadMore(LoadMore(Replace(st, meals)));
      r2.container == CardsOf(meals) && r2.loadMoreHidden
  {
    AfterLoads(st, meals, 0);
    AfterLoads(st, meals, 1);
    AfterLoads(st, meals, 2);
    assert meals[..14] == meals;
  }
}

=== FILE: text.dfy ===
/**
 This module models the two string operations the meals application applies to
 user and API text: JavaScript's `String.prototype.trim` and the search-term
 sanitiser `sanitizeData` (trim, then delete every `<` and `>`).
 */
module Text {

  /** The characters `trim` removes: ECMAScript WhiteSpace and LineTerminator code points. */
  predicate IsWs(c: char) {
    || c == '\t' || c == '\n' || c == '\U{000B}' || c == '\U{000C}' || c == '\r'
    || c == ' ' || c == '\U{00A0}' || c == '\U{1680}'
    || ('\U{2000}' <= c <= '\U{200A}')
    || c == '\U{2028}' || c == '\U{2029}' || c == '\U{202F}' || c == '\U{205F}'
    || c == '\U{3000}' || c == '\U{FEFF}'
  }

  /**
   A few members and non-members of the whitespace set: the ASCII blanks, the
   no-break space, the byte-order mark and the line separators are removed;
   letters, the angle brackets, the zero-width space and NEL are not.
   */
  lemma WsTable()
    ensures IsWs(' ') && IsWs('\t') && IsWs('\n') && IsWs('\r') && IsWs('\U{000B}') && IsWs('\U{000C}')
    ensures IsWs('\U{00A0}') && IsWs('\U{FEFF}') && IsWs('\U{2028}') && IsWs('\U{2029}') && IsWs('\U{3000}')
    ensures !IsWs('<') && !IsWs('>') && !IsWs('\U{200B}') && !IsWs('\U{0085}')
    ensures forall c: char :: ('a' <= c <= 'z' || 'A' <= c <= 'Z' || '0' <= c <= '9') ==> !IsWs(c)
  {
  }

  predicate AllWs(s: string) {
    forall i :: 0 <= i < |s| ==> IsWs(s[i])
  }

  /** A string with no whitespace at either end. */
  predicate Trimmed(s: string) {
    |s| == 0 || (!IsWs(s[0]) && !IsWs(s[|s| - 1]))
  }

  /** Number of whitespace characters at the start of `s`. */
  function LeadingWs(s: string): (k: nat)
    ensures k <= |s|
  {
    if |s| == 0 || !IsWs(s[0]) then 0 else 1 + LeadingWs(s[1..])
  }

  /** The leading run is all whitespace and stops at a non-whitespace character or at the end. */
  lemma {:induction false} LeadingWsSpec(s: string)
    ensures AllWs(s[..LeadingWs(s)])
    ensures LeadingWs(s) < |s| ==> !IsWs(s[LeadingWs(s)])
  {
    if |s| > 0 && IsWs(s[0]) {
      LeadingWsSpec(s[1..]);
      assert s[..LeadingWs(s)] == [s[0]] + s[1..][..LeadingWs(s[1..])];
    }
  }

  /** Number of whitespace characters at the end of `s`. */
  function TrailingWs(s: string): (k: nat)
    ensures k <= |s|
  {
    if |s| == 0 || !IsWs(s[|s| - 1]) then 0 else 1 + TrailingWs(s[..|s| - 1])
  }

  /** The trailing run is all whitespace and starts after a non-whitespace character or at the start. */
  lemma {:induction false} TrailingWsSpec(s: string)
    ensures AllWs(s[|s| - TrailingWs(s)..])
    ensures TrailingWs(s) < |s| ==> !IsWs(s[|s| - TrailingWs(s) - 1])
  {
    if |s| > 0 && IsWs(s[|s| - 1]) {
      var front := s[..|s| - 1];
      TrailingWsSpec(front);
      assert s[|s| - TrailingWs(s)..] == front[|front| - TrailingWs(front)..] + [s[|s| - 1]];
    }
  }

  /** Whitespace in front of a string that starts with a non-whitespace character is exactly the leading run. */
  lemma {:induction false} LeadingWsOfPrefixed(w: string, t: string)
    requires AllWs(w)
    requires |t| == 0 || !IsWs(t[0])
    ensures LeadingWs(w + t) == |w|
  {
    if |w| > 0 {
      assert (w + t)[1..] == w[1..] + t;
      LeadingWsOfPrefixed(w[1..], t);
    } else {
      assert w + t == t;
    }
  }

  /** Whitespace after a string that ends with a non-whitespace character is exactly the trailing run. */
  lemma {:induction false} TrailingWsOfSuffixed(t: string, w: string)
    requires AllWs(w)
    requires |t| == 0 || !IsWs(t[|t| - 1])
    ensures TrailingWs(t + w) == |w|
  {
    if |w| > 0 {
      assert (t + w)[..|t + w| - 1] == t + w[..|w| - 1];
      TrailingWsOfSuffixed(t, w[..|w| - 1]);
    } else {
      assert t + w == t;
    }
  }

  /** `String.prototype.trim`: `s` minus its leading and trailing whitespace. */
  function Trim(s: string): (r: string)
    ensures |r| <= |s|
  {
    var rest := s[LeadingWs(s)..];
    rest[..|rest| - TrailingWs(rest)]
  }

  /** The result of trim has no whitespace at either end. */
  lemma TrimIsTrimmed(s: string)
    ensures Trimmed(Trim(s))
  {
    var rest := s[LeadingWs(s)..];
    LeadingWsSpec(s);
    TrailingWsSpec(rest);
  }

  /** Any two cut points split a sequence into three consecutive pieces. */
  lemma SplitThree<T>(s: seq<T>, a: nat, b: nat)
    requires a <= b <= |s|
    ensures s == s[..a] + s[a..b] + s[b..]
  {
    assert s[..b] == s[..a] + s[a..b];
    assert s == s[..b] + s[b..];
  }

  /** Trim only removes whitespace: the input is whitespace, then the result, then whitespace. */
  lemma TrimSplits(s: string)
    ensures s == s[..LeadingWs(s)] + Trim(s) + s[LeadingWs(s) + |Trim(s)|..]
    ensures AllWs(s[..LeadingWs(s)]) && AllWs(s[LeadingWs(s) + |Trim(s)|..])
  {
    var lead := LeadingWs(s);
    var rest := s[lead..];
    var m := |rest| - TrailingWs(rest);
    assert Trim(s) == s[lead..lead + m];
    SplitThree(s, lead, lead + m);
    LeadingWsSpec(s);
    TrailingWsSpec(rest);
    assert s[lead + |Trim(s)|..] == rest[|rest| - TrailingWs(rest)..];
  }

  /** Trim is determined by its characterisation: whitespace, then a trimmed core, then whitespace. */
  lemma TrimUnique(w1: string, core: string, w2: string)
    requires AllWs(w1) && AllWs(w2) && Trimmed(core)
    ensures Trim(w1 + core + w2) == core
  {
    var s := w1 + core + w2;
    if |core| == 0 {
      assert s == (w1 + w2) + [];
      LeadingWsOfPrefixed(w1 + w2, []);
      assert s[LeadingWs(s)..] == [];
    } else {
      assert s == w1 + (core + w2);
      LeadingWsOfPrefixed(w1, core + w2);
      assert s[|w1|..] == core + w2;
      TrailingWsOfSuffixed(core, w2);
      assert (core + w2)[..|core|] == core;
    }
  }

  /** A string without whitespace at its ends is its own trim. */
  lemma TrimKeepsTrimmed(s: string)
    requires Trimmed(s)
    ensures Trim(s) == s
  {
    assert s == [] + s + [];
    TrimUnique([], s, []);
  }

  /** Whitespace-only input trims to the empty string, and only it does. */
  lemma TrimEmptyIff(s: string)
    ensures Trim(s) == [] <==> AllWs(s)
  {
    if AllWs(s) {
      assert s == s + [] + [];
      TrimUnique(s, [], []);
    } else {
      TrimSplits(s);
    }
  }

  predicate IsAngle(c: char) {
    c == '<' || c == '>'
  }

  /** `replace(/[<>]/g, "")`: delete every angle bracket. */
  function StripAngles(s: string): (r: string)
    ensures |r| <= |s|
  {
    if |s| == 0 then []
    else (if IsAngle(s[0]) then [] else [s[0]]) + StripAngles(s[1..])
  }

  /** No angle bracket survives. */
  lemma {:induction false} StripAnglesNoAngles(s: string)
    ensures forall i :: 0 <= i < |StripAngles(s)| ==> !IsAngle(StripAngles(s)[i])
  {
    if |s| > 0 {
      StripAnglesNoAngles(s[1..]);
    }
  }

  /** Every other character survives with its multiplicity; no angle bracket does. */
  lemma {:induction false} StripAnglesCounts(s: string)
    ensures forall c :: !IsAngle(c) ==> multiset(StripAngles(s))[c] == multiset(s)[c]
    ensures forall c :: IsAngle(c) ==> multiset(StripAngles(s))[c] == 0
  {
    if |s| > 0 {
      StripAnglesCounts(s[1..]);
      assert s == [s[0]] + s[1..];
    }
  }

  /** Deletion works character by character, so it distributes over concatenation and keeps order. */
  lemma {:induction false} StripAnglesAppend(a: string, b: string)
    ensures StripAngles(a + b) == StripAngles(a) + StripAngles(b)
  {
    if |a| == 0 {
      assert a + b == b;
    } else {
      assert (a + b)[1..] == a[1..] + b;
      StripAnglesAppend(a[1..], b);
    }
  }

  /** A string without angle brackets is left as it is. */
  lemma {:induction false} StripAnglesKeepsPlain(s: string)
    requires forall i :: 0 <= i < |s| ==> !IsAngle(s[i])
    ensures StripAngles(s) == s
  {
    if |s| > 0 {
      StripAnglesKeepsPlain(s[1..]);
    }
  }

  /** `sanitizeData`: trim, then delete every `<` and `>`. */
  function Sanitize(input: string): (r: string)
    ensures |r| <= |input|
    ensures forall i :: 0 <= i < |r| ==> !IsAngle(r[i])
    ensures forall c :: !IsAngle(c) ==> multiset(r)[c] == multiset(Trim(input))[c]
  {
    StripAnglesNoAngles(Trim(input));
    StripAnglesCounts(Trim(input));
    StripAngles(Trim(input))
  }

  /** Around a core without whitespace at its ends, sanitising drops the outer whitespace and deletes the core's brackets in place. */
  lemma SanitizeDeletes(w1: string, core: string, w2: string)
    requires AllWs(w1) && AllWs(w2) && Trimmed(core)
    ensures Sanitize(w1 + core + w2) == StripAngles(core)
  {
    TrimUnique(w1, core, w2);
  }

  /** The sanitised term is empty exactly when the trimmed input holds nothing but angle brackets. */
  lemma SanitizeEmptyIff(input: string)
    ensures Sanitize(input) == [] <==> forall i :: 0 <= i < |Trim(input)| ==> IsAngle(Trim(input)[i])
  {
    var t := Trim(input);
    if Sanitize(input) == [] {
      forall i | 0 <= i < |t| ensures IsAngle(t[i]) {
        assert t[i] in multiset(t);
      }
    } else {
      var c := Sanitize(input)[0];
      assert c in StripAngles(t);
    }
  }

  /** Whitespace-only input sanitises to the empty string. */
  lemma BlankSanitizesEmpty(input: string)
    requires AllWs(input)
    ensures Sanitize(input) == []
  {
    TrimEmptyIff(input);
  }

  lemma TrimExample()
    ensures Trim(" <b>chicken</b> ") == "<b>chicken</b>"
  {
    var core := "<b>chicken</b>";
    assert " <b>chicken</b> " == " " + core + " ";
    TrimUnique(" ", core, " ");
  }

  lemma StripAnglesTags()
    ensures StripAngles("<b>") == "b" && StripAngles("</b>") == "/b"
  {
  }

  lemma StripAnglesExample()
    ensures StripAngles("<b>chicken</b>") == "bchicken/b"
  {
    var open, word, close := "<b>", "chicken", "</b>";
    assert "b" + word + "/b" == "bchicken/b";
    assert "<b>chicken</b>" == open + word + close;
    StripAnglesKeepsPlain(word);
    StripAnglesTags();
    StripAnglesAppend(open + word, close);
    StripAnglesAppend(open, word);
  }

  /** A worked example: the brackets go, the inner slash and letters stay. */
  lemma SanitizeExample()
    ensures Sanitize(" <b>chicken</b> ") == "bchicken/b"
  {
    TrimExample();
    StripAnglesExample();
  }

  /** Two brackets and nothing else sanitise to the empty string. */
  lemma SanitizeBracketsOnly()
    ensures Sanitize("<>") == []
  {
    TrimKeepsTrimmed("<>");
  }

  /** With a space between them the brackets go and the space stays. */
  lemma StripAnglesSpaced()
    ensures StripAngles("< >") == " "
  {
    assert "< >" == "<" + " >";
    assert " >" == " " + ">";
    StripAnglesKeepsPlain(" ");
    StripAnglesAppend(" ", ">");
    StripAnglesAppend("<", " >");
  }

  lemma SanitizeSpacedBrackets()
    ensures Sanitize("< >") == " "
  {
    assert "< >" == [] + "< >" + [];
    SanitizeDeletes([], "< >", []);
    StripAnglesSpaced();
  }

  lemma StripAnglesBracketSpace()
    ensures StripAngles("< b") == " b"
  {
    assert "< b" == "<" + " b";
    StripAnglesKeepsPlain(" b");
    StripAnglesAppend("<", " b");
  }

  lemma SanitizeBracketSpace()
    ensures Sanitize("< b") == " b"
  {
    assert "< b" == [] + "< b" + [];
    SanitizeDeletes([], "< b", []);
    StripAnglesBracketSpace();
  }

  lemma SanitizeSpaceB()
    ensures Sanitize(" b") == "b"
  {
    assert " b" == " " + "b" + [];
    SanitizeDeletes(" ", "b", []);
    StripAnglesKeepsPlain("b");
  }

  /** Sanitising is not idempotent: deleting a bracket can expose whitespace at an end. */
  lemma SanitizeNotIdempotent()
    ensures Sanitize("< b") == " b"
    ensures Sanitize(Sanitize("< b")) == "b"
  {
    SanitizeBracketSpace();
    SanitizeSpaceB();
  }
}

=== FILE: wrappers.dfy ===
/** Optional values: a JavaScript field that may be `undefined` or `null`. */
module Wrappers {

  datatype Option<+T> = None | Some(value: T) {

    /** The value if present, else `default`: JavaScript's `value || default` for a field that is an object or missing. */
    function GetOr(default: T): T {
      match this
      case Some(v) => v
      case None => default
    }
  }
}
